=== FILE: README.md ===
# webhooks-ci, modelled in Dafny

webhooks-ci is a small continuous-deployment server. A source-control host
POSTs a push event to it. The server does three things with that event:

- It checks the `X-Hub-Signature-256` header against an HMAC-SHA256 of the raw body.
- It maps the repository name and the pushed branch to a configured project.
- It runs a fixed sequence of pm2, git and npm commands in that project's directory.

This project models those three decisions as pure functions and proves what
they promise. The modules follow the components of `index.js`:

- `Wrappers`: the `Option` type.
- `Hex`: bytes, 32-byte digests, and the lowercase hex text of `digest('hex')`. It includes a decoder and proofs of the round trip in both directions.
- `Signature`: `verifyPostData`, which is the raw-body capture, the expected header value, the length check and `timingSafeEqual`.
- `Routing`: the route handler's ref parsing (`/^refs\/heads\/(.*)$/`) and the two-level configuration lookup.
- `Deploy`: `update`'s directory change and six commands, and `runProcess`, which always resolves.
- `Webhook`: one request end to end, including the error middleware's 403.

HMAC-SHA256 is a function-valued parameter (`Hex.Hmac`) whose results are 32
bytes long. Three other inputs are also parameters: the shared secret, the
configuration, and how each child process ends (`nat -> ProcessEnd`). Whether
`process.chdir` into a working directory succeeds is a parameter too
(`WorkDir -> bool`).

Behaviours of the code that the model keeps:

- A `ref` that does not match `refs/heads/…` makes `exec` return null. The destructuring on index.js:48 then throws before the response is sent. The model reports this as `Routing.Malformed` with no response. That includes a missing `ref`, which the regular expression sees as the text `"undefined"`.
- A branch containing a line terminator (`\n`, `\r`, U+2028, U+2029) does not match, because `.` does not match those characters.
- The ref is parsed before the project lookup. So a malformed ref is reported as `Malformed` even for an unknown project.
- An unset secret makes `crypto.createHmac` throw inside the middleware. Express passes that error to the error handler, so the answer is 403. The model reports this as `Rejected(MissingSecret)`. It is checked after the empty-body check.
- Both an absent raw body and an empty one are rejected (`!req.rawBody`).
- `update` first changes to the configured directory. If that directory is missing, is not a directory or may not be entered, `process.chdir` throws, the un-awaited `update` promise rejects, and none of the six commands runs. The model records this as a deployment with `entered == false` and no attempts.

## Model

| member | source | states |
|---|---|---|
| Hex.Encode | index.js:38 | the hex digest has two lowercase hex digits per digest byte |
| Hex.DecodeEncode | index.js:38 | decoding the hex text of a digest gives back exactly that digest |
| Hex.EncodeDecode | index.js:38 | any lowercase hex text that decodes is the encoding of what it decodes to, so each digest has one spelling |
| Hex.EncodeInjective | index.js:38 | two digests have the same hex text if and only if they are equal |
| Signature.ExpectedText | index.js:37-38 | the expected header is ASCII, 71 characters long, starts with `sha256=`, and the rest decodes to the HMAC of the secret and the raw body |
| Signature.ExpectedSignature | index.js:38 | the expected header's bytes are always 71 bytes long, never empty |
| Signature.ExpectedSignatureInjective | index.js:37-38 | two bodies have the same expected signature exactly when their HMACs agree |
| Signature.AsciiBytes | index.js:38 | the UTF-8 bytes of the ASCII expected text: one byte per character, equal to its code |
| Signature.CaptureRawBody | index.js:24-27 | `rawBody` is set only from a received, non-empty buffer, and then it is that buffer |
| Signature.MismatchCount | index.js:39 | the count of differing positions is at most the length and is zero exactly when the inputs are equal |
| Signature.TimingSafeEqual | index.js:39 | the comparison of equal-length inputs accepts exactly when all bytes are equal |
| Signature.VerifyPostData | index.js:31-44 | verified exactly when the raw body is non-empty, the secret is set and the header bytes equal the expected signature; an absent or empty body is rejected as empty whatever the HMAC; the rejection is `BodyEmpty` exactly when the body is absent or empty; an unset secret is its own rejection; every other failure is a `DigestMismatch` carrying the expected and received values |
| Signature.LengthMismatchRejected | index.js:39-40 | a header whose length differs from the expected value's is rejected as a mismatch |
| Signature.MissingHeaderIsEmpty | index.js:36 | an absent signature header gives the same verdict as an empty one, for every secret and body |
| Signature.MissingHeaderRejected | index.js:36-40 | a request without the signature header is never verified |
| Signature.SignedBodyVerified | index.js:36-43 | a non-empty body sent with its own signature is verified |
| Signature.StaleSignatureRejected | index.js:38-40 | a signature computed for one body is rejected as a mismatch for a body with a different HMAC |
| Routing.ParseBranch | index.js:48 | a branch is produced exactly when the ref starts with `refs/heads/` and the rest has no line terminator, and the ref is then the prefix followed by the branch |
| Routing.ParseBranchRoundTrip | index.js:48 | any single-line branch, including an empty one or one containing `/`, parses back out of `refs/heads/<branch>` |
| Routing.MissingRefMalformed | index.js:47-48 | a push without `ref` yields no branch |
| Routing.MissingNameIsEmpty | index.js:47 | a push without `repository.name` is routed exactly as one naming `''` |
| Routing.MissingRefIsUndefined | index.js:47-48 | a push without `ref` is routed exactly as one whose ref is the text `"undefined"` |
| Routing.Decide | index.js:47-57 | the outcome is `Malformed` exactly when the ref does not parse; `UnknownProject` only for an unconfigured name; `UnknownBranch` only for a configured name and an unconfigured branch; `Deploy` carries the configured descriptor of that name and branch |
| Routing.DeployExactly | index.js:50-57 | a deployment is chosen if and only if the ref parses, the name is configured and the branch is configured under it |
| Routing.ProjectCheckedFirst | index.js:50-53 | an unconfigured project never reports an unknown branch |
| Routing.ConfiguredPushDeploys | index.js:47-56 | a push of `refs/heads/<branch>` for a configured name and branch deploys that entry's descriptor |
| Deploy.Pipeline | index.js:75-80 | the pipeline has six commands; what each one is is stated by `Deploy.PipelineShape` |
| Deploy.PipelineShape | index.js:75-80 | the six commands are, in order, `pm2 stop <pm2>`, `git reset --hard`, `git fetch`, `git checkout origin/<branch>`, `npm i`, `pm2 start <pm2>`; the branch affects only the checkout and the descriptor only the two pm2 steps |
| Deploy.RunAll | index.js:83-99 | running a list of commands attempts each of them once, in order, whatever each process's end |
| Deploy.Update | index.js:69-81 | a deployment changes to the configured path beside the app; if that change succeeds it attempts exactly the six pipeline commands in order, and if not it attempts none |
| Deploy.StepsIgnoreExitStatus | index.js:74-97 | which commands are run does not depend on any exit status: all six are attempted whenever the directory change succeeds, and none when it fails |
| Webhook.Authenticate | index.js:23-44 | after the raw-body capture and the signature check, a request is verified exactly when the secret is set, the received body is non-empty and the header equals that body's expected signature; it is rejected as empty exactly when no non-empty body was received |
| Webhook.Run | index.js:56 | the launched `update` changes to the descriptor's directory and, when that succeeds, attempts the pipeline for the launched branch; when it fails, nothing |
| Webhook.ErrorHandler | index.js:62-65 | every error reaching the error middleware is answered with 403 |
| Webhook.Handle | index.js:46-65 | the answer is 403 exactly when verification fails; there is no answer exactly when a verified request has a malformed ref; a request that starts a deployment is answered 200 |
| Webhook.RejectedGets403 | index.js:62-65 | a request that fails verification gets 403 and starts no deployment |
| Webhook.VerifiedGets200 | index.js:59 | a verified request whose ref names a branch gets 200, whether or not the project and branch are configured |
| Webhook.LaunchExactly | index.js:46-57 | a deployment starts if and only if the body is non-empty and correctly signed, the ref names a branch and the pair is configured; it deploys that pair's descriptor |
| Webhook.TamperedBodyRejected | index.js:38-40 | a body with a different HMAC sent under an old signature gets 403 and deploys nothing |
| Webhook.SignedPushDeploys | index.js:46-81 | a correctly signed push of a configured repository and branch gets 200 and launches a deployment that runs the project's six commands in its directory when that directory can be entered, and none otherwise |

## Left out

- The HMAC-SHA256 computation is a parameter. It is a foreign library call (RFC 2104 over FIPS 180-4).
- The constant-time property of `crypto.timingSafeEqual` is left out, because Dafny cannot state timing. `MismatchCount` examines every position, but that is all the model says about it.
- The UTF-8 decoding and re-encoding of the raw body, and the UTF-8 encoding of the header, are left out. The body and the header are modelled directly as bytes.
- The server setup is not part of this model. That covers dotenv, Express and body-parser, listening on port 3000, and loading `config.json` (index.js:1-23, 28-29, 67). The configuration and the secret are parameters.
- The JSON parsing of the body is left out. The push event's two fields are given alongside the raw bytes, and a `Request` stands for a body the parser accepted. Every body-parser error skips the signature check and the route and reaches the 403 handler. These errors are malformed JSON, a body over the 100 kB default limit, non-object JSON under the default strict mode, and an unsupported charset or encoding. So a correctly signed push over the limit gets 403 and deploys nothing. `Webhook.LaunchExactly`, `Webhook.VerifiedGets200` and `Webhook.SignedPushDeploys` are about accepted bodies only.
- A request with a non-JSON content type is not parsed at all, so `rawBody` stays unset. The model covers this as `Request.body == None`, which is rejected as `BodyEmpty` and answered with 403.
- Non-string `repository.name` or `ref` values are left out. For example, a `null` name is not replaced by the default `''`.
- `"repository": null` is left out. The `= {}` default on index.js:47 applies only to `undefined`, so destructuring `null` throws and the handler fails without responding, as it does for a malformed ref. The model's `PushEvent` has no `null` repository.
- Configuration lookups are exact `map` lookups. JavaScript prototype properties such as `"constructor"` are left out.
- `Webhook.Handle`: for a malformed ref the model gives no response. What the server sends then depends on Express's handling of a rejected async handler, which is not part of this model.
- `spawn`, output streaming, logging and the `error` and `close` events are left out. `runProcess` is reduced to "the step ends and the next one starts". A process that never closes would stop the pipeline; the model does not cover that.
- The model covers one request at a time. Two promise rejections are never handled: `update`'s rejection after `process.chdir` throws (called at index.js:56 without `await` or `.catch`), and, under Express 4, the route handler's rejection after the destructuring at index.js:48 throws. From Node 15 on, the default unhandled-rejection mode turns either into an uncaught exception, and since nothing handles it the server process exits. For the directory case this happens after the 200 is sent, and for a malformed ref without any response. A signed `ping` event (no `ref`) or any tag push (`refs/tags/…`) reaches the malformed path. `Handled(None, None)` and a deployment with `entered == false` describe only the current request. `index.js` does not fix the Node or Express version.
- `process.chdir` as global state is left out, along with the race between concurrent deployments and the fire-and-forget call to `update`. The deployment is returned as a value beside the response.
- `path.join` normalisation of the working directory is left out. The directory is recorded as the configured path beside the app.
- `update`'s app-name argument is only logged, so the model drops it.

=== FILE: deploy.dfy ===
/**
 The deployment pipeline (`update` and `runProcess` in index.js): change to the
 project's directory, then run six commands one after another. Each command is
 awaited, and every command resolves whatever its exit status, so once the
 directory change succeeds every step is attempted. When the directory change
 throws, `update`'s promise rejects and no command runs.
 */
module Deploy {
  import opened Routing

  /** An external program and its arguments, as handed to `spawn`. */
  datatype Command = Command(program: string, args: seq<string>)

  /** The working directory `path.join(<app directory>, '..', path)`: `path` resolved beside the app. */
  datatype WorkDir = BesideApp(path: string)

  /** The remote whose branch is checked out. */
  const Remote: string := "origin"

  /** The commands `update` runs, in order. */
  function Pipeline(branch: string, d: Descriptor): (steps: seq<Command>)
    ensures |steps| == 6
  {
    [ Command("pm2", ["stop", d.pm2]),
      Command("git", ["reset", "--hard"]),
      Command("git", ["fetch"]),
      Command("git", ["checkout", Remote + "/" + branch]),
      Command("npm", ["i"]),
      Command("pm2", ["start", d.pm2]) ]
  }

  /**
   The pipeline is, in order: stop the configured pm2 process, discard local
   changes, fetch, check out the pushed branch on the remote, install
   dependencies, start the same pm2 process. The branch enters only the
   checkout step and the descriptor only the two pm2 steps.
   */
  lemma PipelineShape(branch: string, other: string, d: Descriptor, e: Descriptor)
    ensures var steps := Pipeline(branch, d);
            && steps[0] == Command("pm2", ["stop", d.pm2])
            && steps[1] == Command("git", ["reset", "--hard"])
            && steps[2] == Command("git", ["fetch"])
            && steps[3].program == "git" && |steps[3].args| == 2 && steps[3].args[0] == "checkout"
            && steps[3].args[1][..|Remote| + 1] == "origin/"
            && steps[3].args[1][|Remote| + 1..] == branch
            && steps[4] == Command("npm", ["i"])
            && steps[5] == Command("pm2", ["start", d.pm2])
    ensures forall i :: 0 <= i < 6 && i != 3 ==> Pipeline(branch, d)[i] == Pipeline(other, d)[i]
    ensures forall i :: 0 < i < 5 ==> Pipeline(branch, d)[i] == Pipeline(branch, e)[i]
  {
  }

  /** How a child process ended, as reported by the `close` or `error` event. */
  datatype ProcessEnd =
    | Exited(code: int)
    | Signalled(signal: string)
    | SpawnFailed(message: string)

  /** One step of a deployment: the command started and how it ended. */
  datatype Attempt = Attempt(command: Command, end: ProcessEnd)

  /**
   Runs `steps` in order; `ends(k)` is how the k-th process started by the
   deployment ends. The resolved value carries nothing, so no step is skipped.
   */
  function RunAll(steps: seq<Command>, ends: nat -> ProcessEnd, started: nat): (attempts: seq<Attempt>)
    ensures |attempts| == |steps|
    ensures forall i :: 0 <= i < |steps| ==> attempts[i] == Attempt(steps[i], ends(started + i))
    decreases |steps|
  {
    if steps == [] then []
    else [Attempt(steps[0], ends(started))] + RunAll(steps[1..], ends, started + 1)
  }

  /**
   A deployment's effect: the directory it tried to switch to, whether the
   switch succeeded, and the steps it went through.
   */
  datatype Deployment = Deployment(workDir: WorkDir, entered: bool, attempts: seq<Attempt>)

  function Commands(attempts: seq<Attempt>): (cmds: seq<Command>)
    ensures |cmds| == |attempts|
    ensures forall i :: 0 <= i < |attempts| ==> cmds[i] == attempts[i].command
  {
    seq(|attempts|, i requires 0 <= i < |attempts| => attempts[i].command)
  }

  /**
   `update(appName, branch, config)`; the app name is only logged.
   `canEnter` tells whether `process.chdir` into a working directory succeeds;
   it throws when the directory is missing, is not a directory or may not be
   entered, and then no command runs.
   */
  function Update(branch: string, d: Descriptor, canEnter: WorkDir -> bool,
                  ends: nat -> ProcessEnd): (dep: Deployment)
    ensures dep.workDir == BesideApp(d.path)
    ensures dep.entered == canEnter(BesideApp(d.path))
    ensures dep.entered ==> Commands(dep.attempts) == Pipeline(branch, d)
    ensures !dep.entered ==> dep.attempts == []
    ensures forall i :: 0 <= i < |dep.attempts| ==> dep.attempts[i].end == ends(i)
  {
    var dir := BesideApp(d.path);
    if !canEnter(dir) then Deployment(dir, false, [])
    else Deployment(dir, true, RunAll(Pipeline(branch, d), ends, 0))
  }

  /**
   Exit statuses never change which commands run: once the directory change
   succeeds, all six steps are attempted in order; when it fails, none is.
   */
  lemma StepsIgnoreExitStatus(branch: string, d: Descriptor, canEnter: WorkDir -> bool,
                              ends: nat -> ProcessEnd, ends': nat -> ProcessEnd)
    ensures Commands(Update(branch, d, canEnter, ends).attempts)
              == Commands(Update(branch, d, canEnter, ends').attempts)
    ensures |Update(branch, d, canEnter, ends).attempts| == if canEnter(BesideApp(d.path)) then 6 else 0
  {
  }
}

=== FILE: hex.dfy ===
/**
 Bytes, HMAC-SHA256 digests and the lowercase hexadecimal text that Node's
 `digest('hex')` produces. The HMAC itself is not computed here: callers take it
 as a function-valued parameter whose results are 32-byte digests.
 */
module Hex {
  import opened Wrappers

  newtype byte = x: int | 0 <= x < 256

  /** Length in bytes of an HMAC-SHA256 digest (the SHA-256 output size). */
  const DigestLength: nat := 32

  type Digest = d: seq<byte> | |d| == DigestLength witness seq(DigestLength, _ => 0)

  /** The keyed digest function: HMAC-SHA256(key, message). */
  type Hmac = (seq<byte>, seq<byte>) -> Digest

  const HexDigits: string := "0123456789abcdef"

  predicate IsLowerHexDigit(c: char)
  {
    '0' <= c <= '9' || 'a' <= c <= 'f'
  }

  /** The lowercase hex digit for a nibble. */
  function DigitOf(n: int): (c: char)
    requires 0 <= n < 16
    ensures IsLowerHexDigit(c)
    ensures NibbleOf(c) == Some(n)
  {
    HexDigits[n]
  }

  /** The value of a lowercase hex digit; anything else is not a digit. */
  function NibbleOf(c: char): (r: Option<int>)
    ensures r.Some? <==> IsLowerHexDigit(c)
    ensures r.Some? ==> 0 <= r.value < 16
  {
    if '0' <= c <= '9' then Some(c as int - '0' as int)
    else if 'a' <= c <= 'f' then Some(c as int - 'a' as int + 10)
    else None
  }

  /** The high nibble of a byte. */
  function High(b: byte): (n: int)
    ensures 0 <= n < 16
  {
    b as int / 16
  }

  /** The low nibble of a byte. */
  function Low(b: byte): (n: int)
    ensures 0 <= n < 16
  {
    b as int % 16
  }

  /** The byte with the given high and low nibbles. */
  function Combine(hi: int, lo: int): (b: byte)
    requires 0 <= hi < 16 && 0 <= lo < 16
    ensures High(b) == hi && Low(b) == lo
  {
    (hi * 16 + lo) as byte
  }

  /** Splitting a byte into nibbles and joining them again gives the byte back. */
  lemma CombineNibbles(b: byte)
    ensures Combine(High(b), Low(b)) == b
  {
  }

  /** A lowercase hex digit is the digit of its own value. */
  lemma DigitOfNibble(c: char)
    requires IsLowerHexDigit(c)
    ensures DigitOf(NibbleOf(c).value) == c
  {
  }

  /** Two lowercase hex digits per byte, high nibble first. */
  function Encode(bytes: seq<byte>): (s: string)
    ensures |s| == 2 * |bytes|
    ensures forall i :: 0 <= i < |s| ==> IsLowerHexDigit(s[i])
  {
    if bytes == [] then []
    else [DigitOf(High(bytes[0])), DigitOf(Low(bytes[0]))] + Encode(bytes[1..])
  }

  /** Inverse of `Encode`: odd-length text and non-digits (including upper case) decode to None. */
  function Decode(s: string): (r: Option<seq<byte>>)
    ensures r.Some? ==> 2 * |r.value| == |s|
  {
    if s == [] then Some([])
    else if |s| < 2 || NibbleOf(s[0]).None? || NibbleOf(s[1]).None? then None
    else
      var rest := Decode(s[2..]);
      if rest.None? then None
      else Some([Combine(NibbleOf(s[0]).value, NibbleOf(s[1]).value)] + rest.value)
  }

  /** Decoding what was encoded gives the bytes back. */
  lemma {:induction false} DecodeEncode(bytes: seq<byte>)
    ensures Decode(Encode(bytes)) == Some(bytes)
  {
    if bytes != [] {
      var b := bytes[0];
      var s := Encode(bytes);
      var tail := Encode(bytes[1..]);
      assert s[0] == DigitOf(High(b)) && s[1] == DigitOf(Low(b)) && s[2..] == tail;
      DecodeEncode(bytes[1..]);
      CombineNibbles(b);
      assert Decode(s) == Some([b] + bytes[1..]);
      assert [b] + bytes[1..] == bytes;
    }
  }

  /** Encoding what decoded gives the text back: lowercase hex has one spelling per byte string. */
  lemma {:induction false} EncodeDecode(s: string)
    requires Decode(s).Some?
    ensures Encode(Decode(s).value) == s
  {
    if s != [] {
      var hi, lo := NibbleOf(s[0]).value, NibbleOf(s[1]).value;
      var rest := Decode(s[2..]).value;
      assert Decode(s).value == [Combine(hi, lo)] + rest;
      EncodeDecode(s[2..]);
      EncodePair(hi, lo, rest);
      DigitOfNibble(s[0]);
      DigitOfNibble(s[1]);
      assert s == [s[0], s[1]] + s[2..];
    }
  }

  /** The encoding of a byte followed by more bytes. */
  lemma EncodePair(hi: int, lo: int, rest: seq<byte>)
    requires 0 <= hi < 16 && 0 <= lo < 16
    ensures Encode([Combine(hi, lo)] + rest) == [DigitOf(hi), DigitOf(lo)] + Encode(rest)
  {
  }

  /** Distinct byte strings have distinct hex spellings. */
  lemma EncodeInjective(a: seq<byte>, b: seq<byte>)
    ensures Encode(a) == Encode(b) <==> a == b
  {
    if Encode(a) == Encode(b) {
      DecodeEncode(a);
      DecodeEncode(b);
    }
  }
}

=== FILE: routing.dfy ===
/**
 The POST route's decision: read the repository name and ref from the push
 event, derive the branch from the ref, and look the pair up in the static
 deployment configuration.
 */
module Routing {
  import opened Wrappers

  /** One configured deployment: a directory beside the app's own, and a pm2 process name. */
  datatype Descriptor = Descriptor(path: string, pm2: string)

  /** Repository name to branch name to descriptor; both lookups are exact. */
  type Config = map<string, map<string, Descriptor>>

  /**
   The two fields the route reads from the JSON body. `repositoryName` is None
   when `repository` or `repository.name` is missing; `ref` is None when missing.
   */
  datatype PushEvent = PushEvent(repositoryName: Option<string>, ref: Option<string>)

  const HeadsPrefix: string := "refs/heads/"

  /** The characters a JavaScript regular expression's `.` does not match. */
  predicate IsLineTerminator(c: char)
  {
    c == '\n' || c == '\r' || c == '\U{2028}' || c == '\U{2029}'
  }

  predicate HasLineTerminator(s: string)
  {
    exists i :: 0 <= i < |s| && IsLineTerminator(s[i])
  }

  /** The text the regular expression sees: a missing ref is coerced to "undefined". */
  function RefText(ref: Option<string>): string
  {
    ref.GetOr("undefined")
  }

  /**
   `/^refs\/heads\/(.*)$/.exec(ref)`: the capture group when the whole text is
   the prefix followed by a line without terminators, None when `exec` returns null.
   */
  function ParseBranch(ref: string): (branch: Option<string>)
    ensures branch.Some? <==> |HeadsPrefix| <= |ref| && ref[..|HeadsPrefix|] == HeadsPrefix
                                && !HasLineTerminator(ref[|HeadsPrefix|..])
    ensures branch.Some? ==> ref == HeadsPrefix + branch.value
  {
    if |ref| < |HeadsPrefix| || ref[..|HeadsPrefix|] != HeadsPrefix then None
    else if exists i :: |HeadsPrefix| <= i < |ref| && IsLineTerminator(ref[i]) then None
    else Some(ref[|HeadsPrefix|..])
  }

  /** Any branch name that is a single line parses back out of its full ref. */
  lemma ParseBranchRoundTrip(branch: string)
    requires !HasLineTerminator(branch)
    ensures ParseBranch(HeadsPrefix + branch) == Some(branch)
  {
  }

  /** A missing ref never yields a branch. */
  lemma MissingRefMalformed()
    ensures ParseBranch(RefText(None)) == None
  {
  }

  /** What the route decides for a verified request. */
  datatype Route =
      /** The ref did not match; the destructuring of `exec`'s null result throws. */
    | Malformed
    | UnknownProject(name: string)
    | UnknownBranch(name: string, branch: string)
    | Deploy(name: string, branch: string, descriptor: Descriptor)

  /** The repository name the route uses, defaulting to the empty string. */
  function ProjectName(event: PushEvent): string
  {
    event.repositoryName.GetOr("")
  }

  /** The route handler's decision, before the response is sent. */
  function Decide(config: Config, event: PushEvent): (r: Route)
    ensures r.Malformed? <==> ParseBranch(RefText(event.ref)).None?
    ensures r.UnknownProject? ==> r.name == ProjectName(event) && r.name !in config
    ensures r.UnknownBranch? ==> r.name == ProjectName(event) && r.name in config
                                 && Some(r.branch) == ParseBranch(RefText(event.ref))
                                 && r.branch !in config[r.name]
    ensures r.Deploy? ==> r.name == ProjectName(event) && r.name in config
                          && Some(r.branch) == ParseBranch(RefText(event.ref))
                          && r.branch in config[r.name] && r.descriptor == config[r.name][r.branch]
  {
    var name := ProjectName(event);
    match ParseBranch(RefText(event.ref))
    case None => Malformed
    case Some(branch) =>
      if name !in config then UnknownProject(name)
      else if branch !in config[name] then UnknownBranch(name, branch)
      else Deploy(name, branch, config[name][branch])
  }

  /**
   A deployment is chosen exactly when the ref names a branch, the repository
   is configured and that branch is configured under it.
   */
  lemma DeployExactly(config: Config, event: PushEvent)
    ensures Decide(config, event).Deploy? <==>
              var branch := ParseBranch(RefText(event.ref));
              && branch.Some?
              && ProjectName(event) in config
              && branch.value in config[ProjectName(event)]
  {
  }

  /** A push without `repository.name` is routed exactly like one naming the empty string. */
  lemma MissingNameIsEmpty(config: Config, ref: Option<string>)
    ensures Decide(config, PushEvent(None, ref)) == Decide(config, PushEvent(Some(""), ref))
  {
  }

  /** A push without `ref` is routed exactly like one whose ref is the text "undefined". */
  lemma MissingRefIsUndefined(config: Config, name: Option<string>)
    ensures Decide(config, PushEvent(name, None)) == Decide(config, PushEvent(name, Some("undefined")))
  {
  }

  /** The project is checked before the branch: an unconfigured project never reports an unknown branch. */
  lemma ProjectCheckedFirst(config: Config, event: PushEvent)
    requires ProjectName(event) !in config
    ensures Decide(config, event) in {Malformed, UnknownProject(ProjectName(event))}
  {
  }

  /** A push of `refs/heads/<branch>` for a configured pair deploys that pair's descriptor. */
  lemma ConfiguredPushDeploys(config: Config, name: string, branch: string)
    requires name in config && branch in config[name]
    requires !HasLineTerminator(branch)
    ensures Decide(config, PushEvent(Some(name), Some(HeadsPrefix + branch)))
              == Deploy(name, branch, config[name][branch])
  {
  }
}

=== FILE: signature.dfy ===
/**
 The webhook's signature check (`verifyPostData` in index.js): the raw request
 body must be present, and the signature header must equal, byte for byte,
 `"sha256=" + hex(HMAC-SHA256(secret, rawBody))`.
 */
module Signature {
  import opened Wrappers
  import opened Hex

  /** Name of the hash algorithm, which also prefixes the header value. */
  const Algorithm: string := "sha256"

  predicate IsAscii(s: string)
  {
    forall i :: 0 <= i < |s| ==> s[i] < 128 as char
  }

  /** The UTF-8 encoding of an ASCII string: one byte per character, equal to its code. */
  function AsciiBytes(s: string): (r: seq<byte>)
    requires IsAscii(s)
    ensures |r| == |s|
    ensures forall i :: 0 <= i < |s| ==> r[i] as int == s[i] as int
  {
    seq(|s|, i requires 0 <= i < |s| => s[i] as int as byte)
  }

  /** ASCII strings with the same bytes are the same string. */
  lemma AsciiBytesInjective(s: string, t: string)
    requires IsAscii(s) && IsAscii(t)
    ensures AsciiBytes(s) == AsciiBytes(t) <==> s == t
  {
  }

  /** The header value the sender must present: `sha256=` then the digest in lowercase hex. */
  function ExpectedText(hmac: Hmac, key: seq<byte>, body: seq<byte>): (t: string)
    ensures IsAscii(t)
    ensures |t| == |Algorithm| + 1 + 2 * DigestLength
    ensures t[..|Algorithm| + 1] == Algorithm + "="
    ensures Decode(t[|Algorithm| + 1..]) == Some(hmac(key, body))
  {
    var hex := Encode(hmac(key, body));
    DecodeEncode(hmac(key, body));
    assert (Algorithm + "=" + hex)[|Algorithm| + 1..] == hex;
    Algorithm + "=" + hex
  }

  /** The expected header value as the bytes it is compared in. */
  function ExpectedSignature(hmac: Hmac, key: seq<byte>, body: seq<byte>): (sig: seq<byte>)
    ensures |sig| == |Algorithm| + 1 + 2 * DigestLength
  {
    AsciiBytes(ExpectedText(hmac, key, body))
  }

  /** Two bodies share an expected signature exactly when they share a digest. */
  lemma ExpectedSignatureInjective(hmac: Hmac, key: seq<byte>, a: seq<byte>, b: seq<byte>)
    ensures ExpectedSignature(hmac, key, a) == ExpectedSignature(hmac, key, b) <==> hmac(key, a) == hmac(key, b)
  {
    var ta, tb := ExpectedText(hmac, key, a), ExpectedText(hmac, key, b);
    AsciiBytesInjective(ta, tb);
    if ta == tb {
      assert ta[|Algorithm| + 1..] == tb[|Algorithm| + 1..];
    }
  }

  /**
   What the JSON body parser leaves in `rawBody`: the received buffer, but only
   when one was received and it is non-empty.
   */
  function CaptureRawBody(buf: Option<seq<byte>>): (raw: Option<seq<byte>>)
    ensures raw.Some? ==> buf == raw && raw.value != []
    ensures raw.None? ==> buf.None? || buf.value == []
  {
    if buf.Some? && |buf.value| > 0 then buf else None
  }

  /**
   The number of positions at which two equal-length byte strings differ. Every
   position is examined; there is no early exit at the first difference.
   */
  function MismatchCount(a: seq<byte>, b: seq<byte>): (n: nat)
    requires |a| == |b|
    ensures n <= |a|
    ensures n == 0 <==> a == b
  {
    if a == [] then 0
    else (if a[0] == b[0] then 0 else 1) + MismatchCount(a[1..], b[1..])
  }

  /** Node's `crypto.timingSafeEqual`, which refuses inputs of different lengths. */
  function TimingSafeEqual(a: seq<byte>, b: seq<byte>): (r: bool)
    requires |a| == |b|
    ensures r <==> a == b
  {
    MismatchCount(a, b) == 0
  }

  /** Why a request was refused; each becomes the error passed to `next`. */
  datatype Rejection =
    | BodyEmpty
      /** The secret was unset, so creating the HMAC threw. */
    | MissingSecret
    | DigestMismatch(expected: seq<byte>, received: seq<byte>)

  datatype Verdict = Verified | Rejected(reason: Rejection)

  /** The bytes of the `X-Hub-Signature-256` header; an absent header reads as the empty string. */
  function HeaderBytes(header: Option<seq<byte>>): seq<byte>
  {
    header.GetOr([])
  }

  /**
   The signature middleware. `secret` is the configured shared secret (absent
   when the environment variable is unset), `rawBody` what `CaptureRawBody` left,
   `header` the signature header's bytes.
   */
  function VerifyPostData(hmac: Hmac, secret: Option<seq<byte>>, rawBody: Option<seq<byte>>,
                          header: Option<seq<byte>>): (v: Verdict)
    ensures v.Verified? <==>
              && rawBody.Some? && rawBody.value != []
              && secret.Some?
              && HeaderBytes(header) == ExpectedSignature(hmac, secret.value, rawBody.value)
    ensures v == Rejected(BodyEmpty) <==> rawBody.None? || rawBody.value == []
    ensures v == Rejected(MissingSecret) <==> rawBody.Some? && rawBody.value != [] && secret.None?
    ensures rawBody.Some? && rawBody.value != [] && secret.Some? && !v.Verified? ==> v.reason.DigestMismatch?
    ensures v.Rejected? && v.reason.DigestMismatch? ==>
              && v.reason.received == HeaderBytes(header)
              && v.reason.expected == ExpectedSignature(hmac, secret.value, rawBody.value)
  {
    if rawBody.None? || |rawBody.value| == 0 then Rejected(BodyEmpty)
    else if secret.None? then Rejected(MissingSecret)
    else
      var sig := HeaderBytes(header);
      var digest := ExpectedSignature(hmac, secret.value, rawBody.value);
      if |sig| != |digest| || !TimingSafeEqual(digest, sig) then Rejected(DigestMismatch(digest, sig))
      else Verified
  }

  /** A header of the wrong length is refused as a mismatch, whatever its content. */
  lemma LengthMismatchRejected(hmac: Hmac, key: seq<byte>, rawBody: seq<byte>, header: Option<seq<byte>>)
    requires rawBody != []
    requires |HeaderBytes(header)| != |Algorithm| + 1 + 2 * DigestLength
    ensures VerifyPostData(hmac, Some(key), Some(rawBody), header).reason.DigestMismatch?
  {
  }

  /** An absent signature header is treated exactly like an empty one. */
  lemma MissingHeaderIsEmpty(hmac: Hmac, secret: Option<seq<byte>>, rawBody: Option<seq<byte>>)
    ensures VerifyPostData(hmac, secret, rawBody, None) == VerifyPostData(hmac, secret, rawBody, Some([]))
  {
  }

  /** A request without the signature header is never verified. */
  lemma MissingHeaderRejected(hmac: Hmac, secret: Option<seq<byte>>, rawBody: Option<seq<byte>>)
    ensures VerifyPostData(hmac, secret, rawBody, None).Rejected?
  {
  }

  /** A non-empty body carrying its own signature is verified. */
  lemma SignedBodyVerified(hmac: Hmac, key: seq<byte>, body: seq<byte>)
    requires body != []
    ensures VerifyPostData(hmac, Some(key), Some(body), Some(ExpectedSignature(hmac, key, body))) == Verified
  {
  }

  /**
   A signature taken from one body is refused for any other body whose digest
   differs (a tampered body with a stale signature).
   */
  lemma StaleSignatureRejected(hmac: Hmac, key: seq<byte>, signed: seq<byte>, sent: seq<byte>)
    requires sent != []
    requires hmac(key, sent) != hmac(key, signed)
    ensures VerifyPostData(hmac, Some(key), Some(sent), Some(ExpectedSignature(hmac, key, signed)))
              == Rejected(DigestMismatch(ExpectedSignature(hmac, key, sent), ExpectedSignature(hmac, key, signed)))
  {
    ExpectedSignatureInjective(hmac, key, sent, signed);
  }
}

=== FILE: webhook.dfy ===
/**
 One POST to the webhook, end to end: the signature middleware, then either
 the error middleware's 403 or the route handler's decision and 200, and the
 deployment the handler starts without waiting for it.
 */
module Webhook {
  import opened Wrappers
  import opened Hex
  import opened Signature
  import opened Routing
  import opened Deploy

  datatype Response = Response(status: int, text: string)

  const SignedText: string := "Request body was signed"
  const RejectedText: string := "Request body was not signed or verification failed"

  /** The error middleware: whatever the error, the answer is 403. */
  function ErrorHandler(reason: Rejection): (r: Response)
    ensures r.status == 403
  {
    Response(403, RejectedText)
  }

  /** The fixed parts of the server: the configuration, the shared secret and the HMAC. */
  datatype Server = Server(config: Config, secret: Option<seq<byte>>, hmac: Hmac)

  /**
   A POST: the body buffer the JSON parser received (None when it did not run),
   the signature header, and the fields parsed from the body.
   */
  datatype Request = Request(body: Option<seq<byte>>, signature: Option<seq<byte>>, event: PushEvent)

  /** The `update` call the route handler makes; the deployment runs after the response. */
  datatype Launch = Launch(name: string, branch: string, descriptor: Descriptor)

  /**
   What a request leads to: the response sent (None when the handler throws
   before responding) and the deployment started, if any.
   */
  datatype Handled = Handled(response: Option<Response>, launched: Option<Launch>)

  /** The middleware chain: the body parser's raw-body capture, then the signature check. */
  function Authenticate(server: Server, req: Request): (v: Verdict)
    ensures v.Verified? <==>
              && server.secret.Some? && req.body.Some? && req.body.value != []
              && HeaderBytes(req.signature) == ExpectedSignature(server.hmac, server.secret.value, req.body.value)
    ensures v == Rejected(BodyEmpty) <==> req.body.None? || req.body.value == []
  {
    VerifyPostData(server.hmac, server.secret, CaptureRawBody(req.body), req.signature)
  }

  function Handle(server: Server, req: Request): (h: Handled)
    ensures h.response == Some(Response(403, RejectedText)) <==> Authenticate(server, req).Rejected?
    ensures h.response.None? <==> Authenticate(server, req).Verified? && Decide(server.config, req.event).Malformed?
    ensures h.launched.Some? ==> h.response == Some(Response(200, SignedText))
  {
    match Authenticate(server, req)
    case Rejected(reason) => Handled(Some(ErrorHandler(reason)), None)
    case Verified =>
      match Decide(server.config, req.event)
      case Malformed => Handled(None, None)
      case Deploy(name, branch, d) => Handled(Some(Response(200, SignedText)), Some(Launch(name, branch, d)))
      case _ => Handled(Some(Response(200, SignedText)), None)
  }

  /**
   The deployment a launch performs, given which working directories can be
   entered and how each of its processes ends.
   */
  function Run(launch: Launch, canEnter: WorkDir -> bool, ends: nat -> ProcessEnd): (dep: Deployment)
    ensures dep.workDir == BesideApp(launch.descriptor.path)
    ensures dep.entered == canEnter(dep.workDir)
    ensures dep.entered ==> Commands(dep.attempts) == Pipeline(launch.branch, launch.descriptor)
    ensures !dep.entered ==> dep.attempts == []
  {
    Update(launch.branch, launch.descriptor, canEnter, ends)
  }

  /** Every request that fails verification gets 403 and starts no deployment. */
  lemma RejectedGets403(server: Server, req: Request)
    requires Authenticate(server, req).Rejected?
    ensures Handle(server, req) == Handled(Some(Response(403, RejectedText)), None)
  {
  }

  /**
   Every verified request whose ref names a branch gets 200, whether its
   repository and branch are configured or not.
   */
  lemma VerifiedGets200(server: Server, req: Request)
    requires Authenticate(server, req).Verified?
    requires ParseBranch(RefText(req.event.ref)).Some?
    ensures Handle(server, req).response == Some(Response(200, SignedText))
  {
  }

  /**
   A deployment starts exactly when the request is signed over a non-empty
   body, its ref names a branch, and that repository and branch are
   configured; it then uses their descriptor.
   */
  lemma LaunchExactly(server: Server, req: Request)
    ensures Handle(server, req).launched.Some? <==>
              && server.secret.Some? && req.body.Some? && req.body.value != []
              && HeaderBytes(req.signature) == ExpectedSignature(server.hmac, server.secret.value, req.body.value)
              && ParseBranch(RefText(req.event.ref)).Some?
              && ProjectName(req.event) in server.config
              && ParseBranch(RefText(req.event.ref)).value in server.config[ProjectName(req.event)]
    ensures Handle(server, req).launched.Some? ==>
              var launch := Handle(server, req).launched.value;
              && launch.name == ProjectName(req.event)
              && RefText(req.event.ref) == HeadsPrefix + launch.branch
              && launch.descriptor == server.config[launch.name][launch.branch]
  {
  }

  /** A body changed after signing, sent with the old signature, is refused and deploys nothing. */
  lemma TamperedBodyRejected(server: Server, signed: seq<byte>, sent: seq<byte>, event: PushEvent)
    requires server.secret.Some? && sent != []
    requires server.hmac(server.secret.value, sent) != server.hmac(server.secret.value, signed)
    ensures var req := Request(Some(sent), Some(ExpectedSignature(server.hmac, server.secret.value, signed)), event);
            Handle(server, req) == Handled(Some(Response(403, RejectedText)), None)
  {
    StaleSignatureRejected(server.hmac, server.secret.value, signed, sent);
  }

  /**
   A correctly signed push of a configured repository and single-line branch
   gets 200 and launches a deployment. If the configured directory can be entered it
   runs the six pipeline commands for that branch there, whatever their exit
   statuses; if not, it runs none.
   */
  lemma SignedPushDeploys(server: Server, body: seq<byte>, name: string, branch: string,
                          canEnter: WorkDir -> bool, ends: nat -> ProcessEnd)
    requires server.secret.Some? && body != []
    requires name in server.config && branch in server.config[name]
    requires !HasLineTerminator(branch)
    ensures var req := Request(Some(body), Some(ExpectedSignature(server.hmac, server.secret.value, body)),
                               PushEvent(Some(name), Some(HeadsPrefix + branch)));
            var h := Handle(server, req);
            && h.response == Some(Response(200, SignedText))
            && h.launched == Some(Launch(name, branch, server.config[name][branch]))
            && var dep := Run(h.launched.value, canEnter, ends);
            && dep.workDir == BesideApp(server.config[name][branch].path)
            && (canEnter(dep.workDir) ==> Commands(dep.attempts) == Pipeline(branch, server.config[name][branch]))
            && (!canEnter(dep.workDir) ==> dep.attempts == [])
  {
  }
}

=== FILE: wrappers.dfy ===
/** The optional-value datatype shared by the other modules. */
module Wrappers {

  /** A value that may be absent, as a JavaScript `undefined` field or header is. */
  datatype Option<+T> = None | Some(value: T) {

    /** The wrapped value, or `default` when absent (JavaScript's `x || default` / `= default`). */
    function GetOr(default: T): T
    {
      match this
      case Some(v) => v
      case None => default
    }
  }
}
